=== FILE: README.md ===
# Flashcard decks: ownership-scoped store and server actions

This project models the persistence core of a flashcard web application.
Users own *decks*, and each deck holds question/answer *cards*. Every read or write
is scoped to the requesting user. For cards, the owner is always worked out from the
card's actual parent deck. The server actions sit in front of the store and follow a
fixed pipeline:

1. reject a missing identity;
2. validate the untrusted payload against its schema;
3. call the store;
4. only on success, invalidate the affected views, and after a deck deletion
   navigate back to the dashboard.

The two tables are held as an immutable `Store`: `decks: map<int, Deck>` and
`cards: map<int, Card>`, keyed by primary key. Two counters stand for the identity
sequences, which start at 1. Store operations are pure functions. The fallible writes
return `Result<…, Error>`. Actions return an `Outcome`: the store afterwards, the list of
emitted events (`Revalidate(path)`, `Redirect(path)`), and the result. The store
invariant `Schema.Valid` says three things:

- each row sits under its own id;
- each id was already handed out by its sequence;
- every card's `deckId` names an existing deck (the foreign key).

Every write preserves it.

Modules:

- `Wrappers`: `Option` and `Result`.
- `Errors`: the error taxonomy.
  - `Unauthorized`.
  - `ValidationFailed` with the list of schema issues.
  - `NotFoundOrUnauthorized(entity)`, one variant for "absent" and "someone else's".
    The entity picks the message: "Deck not found or unauthorized" or
    "Card not found or unauthorized".
- `Schema`:
  - the `Deck`, `Card` and `Store` rows;
  - the store invariant;
  - the ownership predicates;
  - the deck→cards relation;
  - `OthersUnchanged`, which says that nothing another user owns or sees has changed.
- `DeckQueries`: `getUserDecks`, `getDeckById`, `createDeck` and `deleteDeck`.
- `CardQueries`: `createCard`, `updateCard` and `deleteCard`.
- `Validation`: the identity check and the field rules the schemas are built from.
- `Effects`: views, invalidation paths (with a parse-back round trip) and action outcomes.
- `CardActions` and `DeckActions`: the input schemas and action pipelines.
- `Scenarios`: end-to-end runs.

## Model

| member | source | states |
|---|---|---|
| Schema.CardsOf | src/db/schema.ts:25-34 | the cards attached to a deck are exactly the cards whose `deckId` is that deck's id, unchanged |
| DeckQueries.InsertByRecency | src/db/queries/decks.ts:14 | inserting into a listing ordered newest-updated first keeps it ordered and yields the old entries plus the new one, counted with multiplicity |
| DeckQueries.GetUserDecks | src/db/queries/decks.ts:8-16 | the listing is ordered by `updatedAt` non-increasing; it holds one entry per deck the user owns, every owned deck appears, no other user's deck appears, and each entry carries exactly that deck's cards |
| DeckQueries.GetDeckById | src/db/queries/decks.ts:21-33 | a deck is returned iff it exists and the caller owns it; an absent deck and a foreign deck both give `None`; a returned deck carries exactly its own cards |
| DeckQueries.CreateDeck | src/db/queries/decks.ts:38-52 | the new deck has the given owner, name and description, both timestamps at `now`, and an id the store never used; it is the only row added; the invariant is kept |
| DeckQueries.DeleteDeck | src/db/queries/decks.ts:59-73 | it fails with the deck not-found-or-unauthorized error iff the caller does not own the deck; on success exactly that deck and exactly its cards are removed (cascade), every other row is unchanged, and the invariant is kept |
| DeckQueries.CreateThenGet | src/db/queries/decks.ts:21-52 | after `createDeck` the owner finds the deck again, with the input fields and no cards; another user gets `None` and does not own it |
| DeckQueries.DeleteThenGet | src/db/schema.ts:17 | after a successful delete the owner gets `None` for that deck and no card refers to it |
| DeckQueries.CreateDeckIsolated | src/db/queries/decks.ts:43-49 | creating a deck changes nothing another user owns or sees |
| DeckQueries.DeleteDeckIsolated | src/db/queries/decks.ts:68-72 | deleting a deck changes nothing another user owns or sees |
| CardQueries.CreateCard | src/db/queries/cards.ts:9-42 | it fails with the deck not-found-or-unauthorized error iff the caller does not own the deck; on success it adds one card with the given deck, text and timestamps under a fresh id, bumps only that deck's `updatedAt` to `now`, and keeps the invariant |
| CardQueries.UpdateCard | src/db/queries/cards.ts:48-82 | it fails with the card not-found-or-unauthorized error iff the card is absent or its actual parent is not the caller's; on success only that card's text and `updatedAt` change, its id, deck and `createdAt` are kept, only the parent deck is bumped, and the invariant is kept |
| CardQueries.DeleteCard | src/db/queries/cards.ts:88-109 | it fails iff the card is absent or its actual parent is not the caller's; on success exactly that card is removed, only its parent deck is bumped (and still exists), and the invariant is kept |
| CardQueries.CardWritesIsolated | src/db/queries/cards.ts:55-64 | a write confined to one deck the caller owns and one card in that deck changes nothing any other user owns or sees |
| CardQueries.CreateCardIsolated | src/db/queries/cards.ts:16-25 | a successful `createCard` changes nothing another user owns or sees |
| CardQueries.UpdateCardIsolated | src/db/queries/cards.ts:55-64 | a successful `updateCard` changes nothing another user owns or sees |
| CardQueries.DeleteCardIsolated | src/db/queries/cards.ts:90-99 | a successful `deleteCard` changes nothing another user owns or sees |
| CardQueries.CreateCardTouchesLast | src/db/queries/cards.ts:36-39 | with one clock that does not run backwards (database and application clocks agreeing), `createCard` keeps timestamps ordered, never lowers the parent's `updatedAt`, and leaves the parent the most recently updated deck |
| CardQueries.UpdateCardTouchesLast | src/db/queries/cards.ts:67-79 | the same for `updateCard`, with the card's real parent deck |
| CardQueries.DeleteCardTouchesLast | src/db/queries/cards.ts:105-108 | the same for `deleteCard`, with the removed card's parent deck |
| Validation.IdIssues | src/actions/card-actions.ts:14 | an id field has no issue iff it is a whole number greater than zero; it carries the `Integer` issue iff the number is not whole and the `Positive` issue iff it is not above zero, and no other issue |
| Validation.TextIssues | src/actions/card-actions.ts:15-16 | a bounded string field has no issue iff its length lies within the bounds; it carries the minimum rule with its "required" message iff it is too short and the maximum rule with its "too long" message iff it is too long, and no other issue |
| Validation.OptionalTextIssues | src/actions/deck-actions.ts:15 | an optional string field has no issue iff it is absent or within the maximum |
| Effects.DecimalRoundTrip | src/actions/card-actions.ts:40 | the decimal rendering of an id in a path reads back as the same id |
| Effects.PathRoundTrip | src/actions/deck-actions.ts:40-42 | every invalidation path parses back to the view it was built from |
| Effects.PathInjective | src/actions/deck-actions.ts:67-70 | two views get the same path iff they are the same view |
| CardActions.CreateCardIssues | src/actions/card-actions.ts:13-17 | the create-card payload validates iff `deckId` is a positive integer and `front` and `back` each have 1 to 1000 characters |
| CardActions.UpdateCardIssues | src/actions/card-actions.ts:46-50 | the update-card payload validates iff `cardId` is a positive integer and `front` and `back` each have 1 to 1000 characters |
| CardActions.DeleteCardIssues | src/actions/card-actions.ts:79-82 | the delete-card payload validates iff `cardId` and `deckId` are both positive integers |
| CardActions.CreateCard | src/actions/card-actions.ts:21-43 | a missing identity fails first, whatever the input, and an invalid payload fails next; both leave the store unchanged with no events; it succeeds iff the caller owns the deck; any failure leaves the store unchanged with no events; a store failure propagates as the query's deck not-found-or-unauthorized error; success leaves exactly the query's store, returns the query's card (the given deck, front and back), and emits exactly one invalidation of `/decks/{deckId}` |
| CardActions.UpdateCard | src/actions/card-actions.ts:54-76 | the same pipeline; it succeeds iff the card's actual parent is the caller's; a store failure propagates as the query's card not-found-or-unauthorized error; success leaves exactly the query's store, returns the card with the new front, back and `updatedAt`, and emits exactly one invalidation of the page of the card's real deck |
| CardActions.DeleteCard | src/actions/card-actions.ts:86-101 | the same pipeline; it succeeds iff the card's actual parent is the caller's; a store failure propagates as the query's card not-found-or-unauthorized error; success leaves exactly the query's store, in which only that card is removed, and emits exactly one invalidation of the client's `/decks/{deckId}` |
| CardActions.DeleteCardIgnoresClientDeckId | src/actions/card-actions.ts:97 | the client-supplied `deckId` has no effect on the resulting store or result |
| DeckActions.CreateDeckIssues | src/actions/deck-actions.ts:13-16 | the create-deck payload validates iff `name` has 1 to 255 characters and `description` is absent or at most 1000 characters |
| DeckActions.DeleteDeckIssues | src/actions/deck-actions.ts:46-48 | the delete-deck payload validates iff `deckId` is a positive integer |
| DeckActions.CreateDeck | src/actions/deck-actions.ts:20-43 | identity is checked first and validation second, and a failure at either touches nothing; a valid request always succeeds and leaves exactly the store call's store; it returns the row that call inserted, with the caller as owner, the input fields, both timestamps at `now` and a fresh id from the sequence; it emits `/dashboard` then `/decks/{newId}` |
| DeckActions.DeleteDeck | src/actions/deck-actions.ts:52-72 | identity is checked first and validation second; the action succeeds iff the caller owns the deck; a store failure propagates unchanged with no events; success leaves exactly the query's store, in which only the deck and its cards are removed and every other row is kept, and emits `/dashboard`, then `/decks/{deckId}`, then one redirect to `/dashboard` |
| Scenarios.BasicsScenario | src/actions/deck-actions.ts:20-72 | create "Basics", then add "Dog" and "Cat": the deck holds both; deleting "Dog" leaves only "Cat"; deleting the deck leaves no deck and no card |
| Scenarios.EmptyFrontRejected | src/actions/card-actions.ts:15 | an empty front is refused with the "Front text is required" issue; nothing is stored and nothing is emitted |

Notes on the model:

- Authentication: the source rejects `!userId`, which also rejects an empty string.
  So `Validation.Authenticated` requires `Some(u)` with `u != ""`.
- Validation issues: for every field, in the schema's field order, the model lists each
  rule the field breaks. Each string rule carries the message the source gives it.
- The delete-card action invalidates the deck page named by the *client's* `deckId`,
  exactly as the code does. `DeleteCardIgnoresClientDeckId` shows that this id reaches
  neither the store nor the authorization decision.
- The code issues the card write and the parent-deck bump as separate statements
  (`src/db/queries/cards.ts:28-39`). Here each operation is one step, and no atomicity
  is claimed.

## Left out

- Clock: two clocks are folded into one abstract `now: nat` parameter. New rows take
  `createdAt` and `updatedAt` from the database's `now()` default
  (`src/db/schema.ts:10-11`, `src/db/schema.ts:20-21`). Deck bumps and card edits take the
  application's `new Date()` (`src/db/queries/cards.ts:38`, `:71`, `:78`, `:107`). So in
  `createCard` the new card's timestamps and the deck bump come from different clocks.
  `updateCard` also reads the application clock twice. The model uses one reading for
  all of these.
- CreateCardTouchesLast: assumes the database clock and the application clock agree.
  Only then do the new card's timestamps and the deck bump share one reading, so the
  store stays chronological and the parent's `updatedAt` never goes down.
- UpdateCardTouchesLast: assumes the application clock's readings agree with each other
  and with the stored timestamps. Only then is the parent's `updatedAt` never lowered.
- DeleteCardTouchesLast: assumes the application clock agrees with the database clock
  that stamped the existing rows. Only then is the parent's `updatedAt` never lowered.
- Store as an external service: Drizzle and Postgres are abstract maps, so connection
  or driver failures (a store failure) are not modelled.
- Column limits: the `varchar(255)` bound on `userId` and `name` is not modelled. The
  action's 255-character check already holds `name` within it.
- Integer width: the 32-bit `integer` id columns are not modelled, so ids are unbounded.
  A validated id above 2^31−1 would make Postgres raise an error rather than report
  "not found". The identity sequence could also overflow.
- Numeric inputs are exact `real`s. There is no NaN, no infinity and no double rounding.
  A field of the wrong type (a string `deckId`, a `null` description, a missing
  `front`) gets Zod's `invalid_type` issue in the source; the typed inputs here cannot
  express such a field.
- String lengths are counted as `|s|` over `seq<char>`. The schemas count UTF-16 code
  units.
- Atomicity and concurrency: there is no model of two requests interleaving between the
  ownership check and the writes. The card insert and the deck bump are not separable.
- Card order: cards attached to a deck form a map keyed by id, because the queries give
  no order for them. The order among decks with equal `updatedAt` is left open, as in
  the source.
- `revalidatePath` and `redirect`: only the events they emit are modelled. The redirect
  ends the action, and no later code exists.
- Authentication provider, UI components, the study mode and the demo script in
  `src/index.ts` are not part of this model.
- Effects.Decimal: template literals print whole numbers of 10^21 and above in exponent
  form, while the model always prints decimal digits. For ids read from the store this
  cannot arise, because such ids cannot exist in the 32-bit id columns. For the client's
  `deckId` in the delete-card action it can: that id is only schema-checked
  (`src/actions/card-actions.ts:81`) before it goes into the invalidation path
  (`src/actions/card-actions.ts:100`). A valid request with `deckId` 1e21 emits
  `/decks/1e+21` in the source, but 22 digits in the model. Doubles at that size are not
  modelled either.

=== FILE: card_actions.dfy ===
/** The card server actions: identify, validate, write, then invalidate the deck page. */
module CardActions {
  import opened Wrappers
  import opened Errors
  import opened Schema
  import opened Validation
  import opened Effects
  import CardQueries

  const TextLimit: nat := 1000

  datatype CreateCardInput = CreateCardInput(deckId: real, front: string, back: string)
  datatype UpdateCardInput = UpdateCardInput(cardId: real, front: string, back: string)
  datatype DeleteCardInput = DeleteCardInput(cardId: real, deckId: real)

  /** Non-empty card text of at most 1000 characters. */
  predicate CardText(s: string) {
    0 < |s| <= TextLimit
  }

  predicate CreateCardInputValid(input: CreateCardInput) {
    IsPositiveInteger(input.deckId) && CardText(input.front) && CardText(input.back)
  }

  predicate UpdateCardInputValid(input: UpdateCardInput) {
    IsPositiveInteger(input.cardId) && CardText(input.front) && CardText(input.back)
  }

  predicate DeleteCardInputValid(input: DeleteCardInput) {
    IsPositiveInteger(input.cardId) && IsPositiveInteger(input.deckId)
  }

  function FrontIssues(front: string): seq<Issue> {
    TextIssues("front", front, 1, "Front text is required", TextLimit, "Front text is too long")
  }

  function BackIssues(back: string): seq<Issue> {
    TextIssues("back", back, 1, "Back text is required", TextLimit, "Back text is too long")
  }

  /** The create-card schema: a positive integer deck id and front/back text. */
  function CreateCardIssues(input: CreateCardInput): (r: seq<Issue>)
    ensures r == [] <==> CreateCardInputValid(input)
    ensures forall i :: 0 <= i < |r| ==> r[i].field in {"deckId", "front", "back"}
  {
    IdIssues("deckId", input.deckId) + FrontIssues(input.front) + BackIssues(input.back)
  }

  /** The update-card schema: a positive integer card id and front/back text. */
  function UpdateCardIssues(input: UpdateCardInput): (r: seq<Issue>)
    ensures r == [] <==> UpdateCardInputValid(input)
    ensures forall i :: 0 <= i < |r| ==> r[i].field in {"cardId", "front", "back"}
  {
    IdIssues("cardId", input.cardId) + FrontIssues(input.front) + BackIssues(input.back)
  }

  /** The delete-card schema: positive integer card and deck ids. */
  function DeleteCardIssues(input: DeleteCardInput): (r: seq<Issue>)
    ensures r == [] <==> DeleteCardInputValid(input)
    ensures forall i :: 0 <= i < |r| ==> r[i].field in {"cardId", "deckId"}
  {
    IdIssues("cardId", input.cardId) + IdIssues("deckId", input.deckId)
  }

  function CreateCard(s: Store, auth: Option<UserId>, input: CreateCardInput, now: Timestamp)
    : (o: Outcome<Card>)
    ensures !Authenticated(auth) ==> o == Rejected(s, Unauthorized)
    ensures Authenticated(auth) && !CreateCardInputValid(input) ==>
      o == Rejected(s, ValidationFailed(CreateCardIssues(input)))
    ensures o.result.Err? ==> o.store == s && o.events == []
    ensures o.result.Ok? ==>
      && Authenticated(auth) && CreateCardInputValid(input)
      && OwnsDeck(s, input.deckId.Floor, auth.value)
      && o.result.value.deckId == input.deckId.Floor
      && o.result.value.front == input.front && o.result.value.back == input.back
      && o.events == [Revalidate(Path(DeckPage(input.deckId.Floor)))]
    ensures Authenticated(auth) && CreateCardInputValid(input) ==>
      (o.result.Ok? <==> OwnsDeck(s, input.deckId.Floor, auth.value))
    ensures Authenticated(auth) && CreateCardInputValid(input) ==>
      var q := CardQueries.CreateCard(s, input.deckId.Floor, auth.value, input.front, input.back, now);
      && (q.Err? ==> o.result == Err(q.error) && o.result == Err(NotFoundOrUnauthorized(DeckEntity)))
      && (q.Ok? ==> o.store == q.value.0 && o.result == Ok(q.value.1))
    ensures Valid(s) ==> Valid(o.store)
  {
    if !Authenticated(auth) then Rejected(s, Unauthorized)
    else
      var issues := CreateCardIssues(input);
      if issues != [] then Rejected(s, ValidationFailed(issues))
      else
        var deckId := input.deckId.Floor;
        match CardQueries.CreateCard(s, deckId, auth.value, input.front, input.back, now)
        case Err(e) => Rejected(s, e)
        case Ok((t, card)) => Outcome(t, [Revalidate(Path(DeckPage(deckId)))], Ok(card))
  }

  function UpdateCard(s: Store, auth: Option<UserId>, input: UpdateCardInput, now: Timestamp)
    : (o: Outcome<Card>)
    ensures !Authenticated(auth) ==> o == Rejected(s, Unauthorized)
    ensures Authenticated(auth) && !UpdateCardInputValid(input) ==>
      o == Rejected(s, ValidationFailed(UpdateCardIssues(input)))
    ensures o.result.Err? ==> o.store == s && o.events == []
    ensures o.result.Ok? ==>
      && Authenticated(auth) && UpdateCardInputValid(input)
      && OwnsCard(s, input.cardId.Floor, auth.value)
      && o.result.value.id == s.cards[input.cardId.Floor].id
      && o.result.value.deckId == s.cards[input.cardId.Floor].deckId
      && o.events == [Revalidate(Path(DeckPage(s.cards[input.cardId.Floor].deckId)))]
    ensures Authenticated(auth) && UpdateCardInputValid(input) ==>
      (o.result.Ok? <==> OwnsCard(s, input.cardId.Floor, auth.value))
    ensures Authenticated(auth) && UpdateCardInputValid(input) ==>
      var q := CardQueries.UpdateCard(s, input.cardId.Floor, auth.value, input.front, input.back, now);
      && (q.Err? ==> o.result == Err(q.error) && o.result == Err(NotFoundOrUnauthorized(CardEntity)))
      && (q.Ok? ==> o.store == q.value.0 && o.result == Ok(q.value.1))
    ensures o.result.Ok? ==>
      o.result.value.front == input.front && o.result.value.back == input.back
      && o.result.value.updatedAt == now
    ensures Valid(s) ==> Valid(o.store)
  {
    if !Authenticated(auth) then Rejected(s, Unauthorized)
    else
      var issues := UpdateCardIssues(input);
      if issues != [] then Rejected(s, ValidationFailed(issues))
      else
        match CardQueries.UpdateCard(s, input.cardId.Floor, auth.value, input.front, input.back, now)
        case Err(e) => Rejected(s, e)
        case Ok((t, card)) => Outcome(t, [Revalidate(Path(DeckPage(card.deckId)))], Ok(card))
  }

  /** Only the card id and the caller reach the store; the client's deck id
      only chooses which page is invalidated. */
  function DeleteCard(s: Store, auth: Option<UserId>, input: DeleteCardInput, now: Timestamp)
    : (o: Outcome<()>)
    ensures !Authenticated(auth) ==> o == Rejected(s, Unauthorized)
    ensures Authenticated(auth) && !DeleteCardInputValid(input) ==>
      o == Rejected(s, ValidationFailed(DeleteCardIssues(input)))
    ensures o.result.Err? ==> o.store == s && o.events == []
    ensures o.result.Ok? ==>
      && Authenticated(auth) && DeleteCardInputValid(input)
      && OwnsCard(s, input.cardId.Floor, auth.value)
      && o.store.cards == s.cards - {input.cardId.Floor}
      && o.events == [Revalidate(Path(DeckPage(input.deckId.Floor)))]
    ensures Authenticated(auth) && DeleteCardInputValid(input) ==>
      (o.result.Ok? <==> OwnsCard(s, input.cardId.Floor, auth.value))
    ensures Authenticated(auth) && DeleteCardInputValid(input) ==>
      var q := CardQueries.DeleteCard(s, input.cardId.Floor, auth.value, now);
      && (q.Err? ==> o.result == Err(q.error) && o.result == Err(NotFoundOrUnauthorized(CardEntity)))
      && (q.Ok? ==> o.store == q.value && o.result == Ok(()))
    ensures Valid(s) ==> Valid(o.store)
  {
    if !Authenticated(auth) then Rejected(s, Unauthorized)
    else
      var issues := DeleteCardIssues(input);
      if issues != [] then Rejected(s, ValidationFailed(issues))
      else
        match CardQueries.DeleteCard(s, input.cardId.Floor, auth.value, now)
        case Err(e) => Rejected(s, e)
        case Ok(t) => Outcome(t, [Revalidate(Path(DeckPage(input.deckId.Floor)))], Ok(()))
  }

  /** Two valid delete requests for the same card that differ only in the deck id
      the client sent leave the same store and the same result. */
  lemma DeleteCardIgnoresClientDeckId(s: Store, auth: Option<UserId>, a: DeleteCardInput,
                                      b: DeleteCardInput, now: Timestamp)
    requires a.cardId == b.cardId
    requires IsPositiveInteger(a.deckId) && IsPositiveInteger(b.deckId)
    ensures DeleteCard(s, auth, a, now).store == DeleteCard(s, auth, b, now).store
    ensures DeleteCard(s, auth, a, now).result == DeleteCard(s, auth, b, now).result
  {
  }
}

=== FILE: card_queries.dfy ===
/** Card writes; ownership always comes from the parent deck of the row itself. */
module CardQueries {
  import opened Wrappers
  import opened Errors
  import opened Schema

  /** Marks deck `deckId` as touched at `now`, as the `set({ updatedAt: new Date() })`
      bump does (src/db/queries/cards.ts:37-39). */
  function Touch(decks: map<int, Deck>, deckId: int, now: Timestamp): (r: map<int, Deck>)
    requires deckId in decks
    ensures r.Keys == decks.Keys
    ensures r[deckId].updatedAt == now
    ensures r[deckId] == decks[deckId].(updatedAt := now)
    ensures forall k :: k in decks && k != deckId ==> r[k] == decks[k]
  {
    decks[deckId := decks[deckId].(updatedAt := now)]
  }

  /** Inserts a card into a deck the user owns, then touches that deck. */
  function CreateCard(s: Store, deckId: int, userId: UserId, front: string, back: string,
                      now: Timestamp): (r: Result<(Store, Card), Error>)
    ensures r.Err? <==> !OwnsDeck(s, deckId, userId)
    ensures r.Err? ==> r.error == NotFoundOrUnauthorized(DeckEntity)
    ensures r.Ok? ==>
      var (t, card) := r.value;
      && card.deckId == deckId && card.front == front && card.back == back
      && card.createdAt == now && card.updatedAt == now
      && t.cards == s.cards[card.id := card]
      && t.decks == s.decks[deckId := s.decks[deckId].(updatedAt := now)]
      && t.nextDeckId == s.nextDeckId && t.nextCardId > card.id >= s.nextCardId
    ensures Valid(s) && r.Ok? ==> r.value.1.id !in s.cards && Valid(r.value.0)
  {
    if !OwnsDeck(s, deckId, userId) then
      Err(NotFoundOrUnauthorized(DeckEntity))
    else
      var card := Card(s.nextCardId, deckId, front, back, now, now);
      var t := Store(Touch(s.decks, deckId, now), s.cards[card.id := card],
                     s.nextDeckId, s.nextCardId + 1);
      assert Valid(s) ==> Valid(t) by {
        if Valid(s) {
          assert CardsHaveDecks(t) by {
            forall k | k in t.cards ensures t.cards[k].deckId in t.decks {
              if k != card.id {
                assert s.cards[k].deckId in s.decks;
              }
            }
          }
        }
      }
      Ok((t, card))
  }

  /** Rewrites the text of a card whose parent deck the user owns, then touches that deck. */
  function UpdateCard(s: Store, cardId: int, userId: UserId, front: string, back: string,
                      now: Timestamp): (r: Result<(Store, Card), Error>)
    ensures r.Err? <==> !OwnsCard(s, cardId, userId)
    ensures r.Err? ==> r.error == NotFoundOrUnauthorized(CardEntity)
    ensures r.Ok? ==>
      var (t, card) := r.value;
      var before := s.cards[cardId];
      && card.id == before.id && card.deckId == before.deckId
      && card.createdAt == before.createdAt
      && card.front == front && card.back == back && card.updatedAt == now
      && t.cards == s.cards[cardId := card]
      && t.decks == s.decks[before.deckId := s.decks[before.deckId].(updatedAt := now)]
      && t.nextDeckId == s.nextDeckId && t.nextCardId == s.nextCardId
    ensures Valid(s) && r.Ok? ==> Valid(r.value.0)
  {
    if !OwnsCard(s, cardId, userId) then
      Err(NotFoundOrUnauthorized(CardEntity))
    else
      var before := s.cards[cardId];
      var card := before.(front := front, back := back, updatedAt := now);
      var t := s.(decks := Touch(s.decks, before.deckId, now), cards := s.cards[cardId := card]);
      assert Valid(s) ==> Valid(t) by {
        if Valid(s) {
          assert CardsHaveDecks(t) by {
            forall k | k in t.cards ensures t.cards[k].deckId in t.decks {
              assert s.cards[k].deckId in s.decks;
            }
          }
        }
      }
      Ok((t, card))
  }

  /** Removes a card whose parent deck the user owns, then touches that deck. */
  function DeleteCard(s: Store, cardId: int, userId: UserId, now: Timestamp): (r: Result<Store, Error>)
    ensures r.Err? <==> !OwnsCard(s, cardId, userId)
    ensures r.Err? ==> r.error == NotFoundOrUnauthorized(CardEntity)
    ensures r.Ok? ==>
      var parent := s.cards[cardId].deckId;
      && r.value.cards == s.cards - {cardId}
      && r.value.decks == s.decks[parent := s.decks[parent].(updatedAt := now)]
      && r.value.nextDeckId == s.nextDeckId && r.value.nextCardId == s.nextCardId
    ensures Valid(s) && r.Ok? ==> Valid(r.value)
  {
    if !OwnsCard(s, cardId, userId) then
      Err(NotFoundOrUnauthorized(CardEntity))
    else
      var parent := s.cards[cardId].deckId;
      var t := s.(decks := Touch(s.decks, parent, now), cards := s.cards - {cardId});
      assert Valid(s) ==> Valid(t) by {
        if Valid(s) {
          assert CardsHaveDecks(t) by {
            forall k | k in t.cards ensures t.cards[k].deckId in t.decks {
              assert s.cards[k].deckId in s.decks;
            }
          }
        }
      }
      Ok(t)
  }

  /** A write that touches only deck `parent`, owned by `userId`, and only card
      `cardId`, which is or ends up in that deck, changes nothing another user
      owns or can see. */
  lemma {:induction false} CardWritesIsolated(s: Store, t: Store, userId: UserId, parent: int, cardId: int)
    requires OwnsDeck(s, parent, userId)
    requires t.decks.Keys == s.decks.Keys
    requires forall k :: k in s.decks ==> t.decks[k].userId == s.decks[k].userId
    requires forall k :: k in s.decks && k != parent ==> t.decks[k] == s.decks[k]
    requires forall k :: k in t.cards && k != cardId ==> k in s.cards && t.cards[k] == s.cards[k]
    requires forall k :: k in s.cards && k != cardId ==> k in t.cards
    requires cardId in s.cards ==> s.cards[cardId].deckId == parent
    requires cardId in t.cards ==> t.cards[cardId].deckId == parent
    ensures OthersUnchanged(s, t, userId)
  {
    forall v | v != userId
      ensures OwnedDecks(s, v) == OwnedDecks(t, v) && OwnedCards(s, v) == OwnedCards(t, v)
    {
      assert OwnedDecks(s, v) == OwnedDecks(t, v) by {
        forall k | k in OwnedDecks(s, v) ensures k in OwnedDecks(t, v) && t.decks[k] == s.decks[k] {
          assert s.decks[k].userId == v;
        }
      }
      assert OwnedCards(s, v) == OwnedCards(t, v) by {
        forall k | k in OwnedCards(t, v) ensures k in OwnedCards(s, v) && OwnedCards(s, v)[k] == t.cards[k] {
          assert k != cardId;
        }
        forall k | k in OwnedCards(s, v) ensures k in OwnedCards(t, v) {
          assert k != cardId;
        }
      }
    }
  }

  lemma CreateCardIsolated(s: Store, deckId: int, userId: UserId, front: string, back: string,
                           now: Timestamp)
    requires Valid(s)
    ensures CreateCard(s, deckId, userId, front, back, now).Ok? ==>
      OthersUnchanged(s, CreateCard(s, deckId, userId, front, back, now).value.0, userId)
  {
    var r := CreateCard(s, deckId, userId, front, back, now);
    if r.Ok? {
      CardWritesIsolated(s, r.value.0, userId, deckId, r.value.1.id);
    }
  }

  lemma UpdateCardIsolated(s: Store, cardId: int, userId: UserId, front: string, back: string,
                           now: Timestamp)
    ensures UpdateCard(s, cardId, userId, front, back, now).Ok? ==>
      OthersUnchanged(s, UpdateCard(s, cardId, userId, front, back, now).value.0, userId)
  {
    var r := UpdateCard(s, cardId, userId, front, back, now);
    if r.Ok? {
      CardWritesIsolated(s, r.value.0, userId, s.cards[cardId].deckId, cardId);
    }
  }

  lemma DeleteCardIsolated(s: Store, cardId: int, userId: UserId, now: Timestamp)
    ensures DeleteCard(s, cardId, userId, now).Ok? ==>
      OthersUnchanged(s, DeleteCard(s, cardId, userId, now).value, userId)
  {
    var r := DeleteCard(s, cardId, userId, now);
    if r.Ok? {
      CardWritesIsolated(s, r.value, userId, s.cards[cardId].deckId, cardId);
    }
  }

  /** With a clock that never runs backwards, a card write keeps every row's
      timestamps ordered and leaves the parent deck the most recently updated one,
      so it heads the user's listing. */
  predicate TouchedLast(t: Store, parent: int, now: Timestamp) {
    && parent in t.decks
    && t.decks[parent].updatedAt == now
    && forall k :: k in t.decks ==> t.decks[k].updatedAt <= t.decks[parent].updatedAt
  }

  lemma CreateCardTouchesLast(s: Store, deckId: int, userId: UserId, front: string, back: string,
                              clock: Timestamp, now: Timestamp)
    requires Chronological(s, clock) && clock <= now
    ensures var r := CreateCard(s, deckId, userId, front, back, now);
      r.Ok? ==>
        && Chronological(r.value.0, now) && TouchedLast(r.value.0, deckId, now)
        && s.decks[deckId].updatedAt <= r.value.0.decks[deckId].updatedAt
  {
  }

  lemma UpdateCardTouchesLast(s: Store, cardId: int, userId: UserId, front: string, back: string,
                              clock: Timestamp, now: Timestamp)
    requires Chronological(s, clock) && clock <= now
    ensures var r := UpdateCard(s, cardId, userId, front, back, now);
      r.Ok? ==>
        && Chronological(r.value.0, now) && TouchedLast(r.value.0, r.value.1.deckId, now)
        && s.decks[r.value.1.deckId].updatedAt <= r.value.0.decks[r.value.1.deckId].updatedAt
  {
  }

  lemma DeleteCardTouchesLast(s: Store, cardId: int, userId: UserId, clock: Timestamp, now: Timestamp)
    requires Chronological(s, clock) && clock <= now
    ensures var r := DeleteCard(s, cardId, userId, now);
      r.Ok? ==>
        && Chronological(r.value, now) && TouchedLast(r.value, s.cards[cardId].deckId, now)
        && s.decks[s.cards[cardId].deckId].updatedAt <= r.value.decks[s.cards[cardId].deckId].updatedAt
  {
  }
}

=== FILE: deck_actions.dfy ===
/** The deck server actions: identify, validate, write, invalidate, and for a
    deletion navigate back to the listing. */
module DeckActions {
  import opened Wrappers
  import opened Errors
  import opened Schema
  import opened Validation
  import opened Effects
  import DeckQueries

  const NameLimit: nat := 255
  const DescriptionLimit: nat := 1000

  datatype CreateDeckInput = CreateDeckInput(name: string, description: Option<string>)
  datatype DeleteDeckInput = DeleteDeckInput(deckId: real)

  /** A name of 1 to 255 characters; a description absent or at most 1000. */
  predicate CreateDeckInputValid(input: CreateDeckInput) {
    && 0 < |input.name| <= NameLimit
    && (input.description.Some? ==> |input.description.value| <= DescriptionLimit)
  }

  predicate DeleteDeckInputValid(input: DeleteDeckInput) {
    IsPositiveInteger(input.deckId)
  }

  function CreateDeckIssues(input: CreateDeckInput): (r: seq<Issue>)
    ensures r == [] <==> CreateDeckInputValid(input)
    ensures forall i :: 0 <= i < |r| ==> r[i].field in {"name", "description"}
  {
    TextIssues("name", input.name, 1, "Name is required", NameLimit, "Name is too long")
    + OptionalTextIssues("description", input.description, DescriptionLimit, "Description is too long")
  }

  function DeleteDeckIssues(input: DeleteDeckInput): (r: seq<Issue>)
    ensures r == [] <==> DeleteDeckInputValid(input)
    ensures forall i :: 0 <= i < |r| ==> r[i].field == "deckId"
  {
    IdIssues("deckId", input.deckId)
  }

  function CreateDeck(s: Store, auth: Option<UserId>, input: CreateDeckInput, now: Timestamp)
    : (o: Outcome<Deck>)
    ensures !Authenticated(auth) ==> o == Rejected(s, Unauthorized)
    ensures Authenticated(auth) && !CreateDeckInputValid(input) ==>
      o == Rejected(s, ValidationFailed(CreateDeckIssues(input)))
    ensures o.result.Err? ==> o.store == s && o.events == []
    ensures Authenticated(auth) && CreateDeckInputValid(input) ==> o.result.Ok?
    ensures o.result.Ok? ==>
      var deck := o.result.value;
      && Authenticated(auth) && CreateDeckInputValid(input)
      && deck.userId == auth.value && deck.name == input.name
      && deck.description == input.description
      && o.store.decks == s.decks[deck.id := deck] && o.store.cards == s.cards
      && o.events == [Revalidate(Path(Dashboard)), Revalidate(Path(DeckPage(deck.id)))]
    ensures Authenticated(auth) && CreateDeckInputValid(input) ==>
      var q := DeckQueries.CreateDeck(s, auth.value, input.name, input.description, now);
      o.store == q.0 && o.result == Ok(q.1)
    ensures o.result.Ok? ==>
      && o.result.value.createdAt == now && o.result.value.updatedAt == now
      && o.store.nextCardId == s.nextCardId && o.store.nextDeckId > o.result.value.id >= s.nextDeckId
    ensures Valid(s) && o.result.Ok? ==> o.result.value.id !in s.decks && Valid(o.store)
  {
    if !Authenticated(auth) then Rejected(s, Unauthorized)
    else
      var issues := CreateDeckIssues(input);
      if issues != [] then Rejected(s, ValidationFailed(issues))
      else
        var (t, deck) := DeckQueries.CreateDeck(s, auth.value, input.name, input.description, now);
        Outcome(t, [Revalidate(Path(Dashboard)), Revalidate(Path(DeckPage(deck.id)))], Ok(deck))
  }

  function DeleteDeck(s: Store, auth: Option<UserId>, input: DeleteDeckInput): (o: Outcome<()>)
    ensures !Authenticated(auth) ==> o == Rejected(s, Unauthorized)
    ensures Authenticated(auth) && !DeleteDeckInputValid(input) ==>
      o == Rejected(s, ValidationFailed(DeleteDeckIssues(input)))
    ensures o.result.Err? ==> o.store == s && o.events == []
    ensures Authenticated(auth) && DeleteDeckInputValid(input) ==>
      (o.result.Ok? <==> OwnsDeck(s, input.deckId.Floor, auth.value))
    ensures Authenticated(auth) && DeleteDeckInputValid(input) && o.result.Err? ==>
      o.result.error == NotFoundOrUnauthorized(DeckEntity)
    ensures Authenticated(auth) && DeleteDeckInputValid(input) ==>
      var q := DeckQueries.DeleteDeck(s, input.deckId.Floor, auth.value);
      && (q.Err? ==> o.result == Err(q.error))
      && (q.Ok? ==> o.store == q.value && o.result == Ok(()))
    ensures o.result.Ok? ==>
      && Authenticated(auth) && DeleteDeckInputValid(input)
      && o.store.decks == s.decks - {input.deckId.Floor}
      && (forall k :: k in o.store.cards <==> k in s.cards && s.cards[k].deckId != input.deckId.Floor)
      && (forall k :: k in o.store.cards ==> o.store.cards[k] == s.cards[k])
      && o.events == [Revalidate(Path(Dashboard)), Revalidate(Path(DeckPage(input.deckId.Floor))),
                      Redirect(Path(Dashboard))]
    ensures Valid(s) ==> Valid(o.store)
  {
    if !Authenticated(auth) then Rejected(s, Unauthorized)
    else
      var issues := DeleteDeckIssues(input);
      if issues != [] then Rejected(s, ValidationFailed(issues))
      else
        var deckId := input.deckId.Floor;
        match DeckQueries.DeleteDeck(s, deckId, auth.value)
        case Err(e) => Rejected(s, e)
        case Ok(t) =>
          Outcome(t, [Revalidate(Path(Dashboard)), Revalidate(Path(DeckPage(deckId))),
                      Redirect(Path(Dashboard))], Ok(()))
  }
}

=== FILE: deck_queries.dfy ===
/** Deck reads and writes, each scoped to the requesting user. */
module DeckQueries {
  import opened Wrappers
  import opened Errors
  import opened Schema

  /** A deck row with its cards attached, as the `with: { cards: true }` queries return it. */
  datatype DeckWithCards = DeckWithCards(deck: Deck, cards: map<int, Card>)

  /** `d` with the cards the `with: { cards: true }` option attaches
      (src/db/queries/decks.ts:11-13). */
  function WithCards(s: Store, d: Deck): (r: DeckWithCards)
    ensures r.deck == d
    ensures forall k :: k in r.cards <==> k in s.cards && s.cards[k].deckId == d.id
  {
    DeckWithCards(d, CardsOf(s, d.id))
  }

  /** Most recently updated first; the order among equal timestamps is left open. */
  predicate ByRecency(r: seq<DeckWithCards>) {
    forall i, j :: 0 <= i < j < |r| ==> r[i].deck.updatedAt >= r[j].deck.updatedAt
  }

  /** Places `x` into a listing already ordered by recency. */
  function InsertByRecency(x: DeckWithCards, r: seq<DeckWithCards>): (t: seq<DeckWithCards>)
    requires ByRecency(r)
    ensures ByRecency(t)
    ensures |t| == |r| + 1
    ensures multiset(t) == multiset(r) + multiset{x}
    decreases |r|
  {
    if r == [] || r[0].deck.updatedAt <= x.deck.updatedAt then
      [x] + r
    else
      var rest := InsertByRecency(x, r[1..]);
      InsertedMembers(x, r[1..], rest);
      LaterNotNewer(r, rest, x);
      assert r == [r[0]] + r[1..];
      [r[0]] + rest
  }

  /** A sequence with one more copy of `x` holds exactly the old members and `x`. */
  lemma InsertedMembers(x: DeckWithCards, r: seq<DeckWithCards>, t: seq<DeckWithCards>)
    requires multiset(t) == multiset(r) + multiset{x}
    ensures forall e :: e in t <==> e in r || e == x
  {
    forall e ensures e in t <==> e in r || e == x {
      assert e in t <==> e in multiset(t);
      assert e in r <==> e in multiset(r);
    }
  }

  /** Everything in `rest`, drawn from the tail of `r` or older than its head,
      may follow the head of `r`. */
  lemma LaterNotNewer(r: seq<DeckWithCards>, rest: seq<DeckWithCards>, x: DeckWithCards)
    requires ByRecency(r) && |r| > 0 && x.deck.updatedAt < r[0].deck.updatedAt
    requires forall e :: e in rest <==> e in r[1..] || e == x
    ensures ByRecency([r[0]] + rest) <== ByRecency(rest)
  {
    forall e | e in rest ensures e.deck.updatedAt <= r[0].deck.updatedAt {
      if e in r[1..] {
        var j :| 0 <= j < |r[1..]| && r[1..][j] == e;
        assert r[j + 1] == e;
      }
    }
  }

  /** Some member of a non-empty set of ids. */
  method Pick(ids: set<int>) returns (k: int)
    requires ids != {}
    ensures k in ids
  {
    // `ids != {}` alone gives the verifier no witness for the `:|` below; this case split does.
    if forall j :: j !in ids {
      assert false;
    }
    k :| k in ids;
  }

  /** The user's decks with their cards, newest-updated first. */
  method GetUserDecks(s: Store, userId: UserId) returns (r: seq<DeckWithCards>)
    ensures ByRecency(r)
    ensures |r| == |OwnedIds(s, userId)|
    ensures forall k :: k in s.decks && s.decks[k].userId == userId ==> WithCards(s, s.decks[k]) in r
    ensures forall e :: e in r ==>
      e.deck.userId == userId && e.deck in s.decks.Values && e == WithCards(s, e.deck)
  {
    var pending := OwnedIds(s, userId);
    ghost var listed: set<int> := {};
    r := [];
    while pending != {}
      invariant pending !! listed
      invariant pending + listed == OwnedIds(s, userId)
      invariant |r| == |listed|
      invariant ByRecency(r)
      invariant forall k :: k in listed ==> WithCards(s, s.decks[k]) in r
      invariant forall e :: e in r ==>
        e.deck.userId == userId && e.deck in s.decks.Values && e == WithCards(s, e.deck)
      decreases |pending|
    {
      var k := Pick(pending);
      var row := WithCards(s, s.decks[k]);
      var r' := InsertByRecency(row, r);
      InsertedMembers(row, r, r');
      r := r';
      pending := pending - {k};
      listed := listed + {k};
    }
  }

  /** The deck with id `deckId` and its cards, provided `userId` owns it. */
  function GetDeckById(s: Store, deckId: int, userId: UserId): (r: Option<DeckWithCards>)
    ensures r.Some? <==> OwnsDeck(s, deckId, userId)
    ensures r.Some? ==> r.value.deck == s.decks[deckId] && r.value == WithCards(s, r.value.deck)
  {
    if OwnsDeck(s, deckId, userId) then Some(WithCards(s, s.decks[deckId])) else None
  }

  /** Inserts a deck under the next identity value; both timestamps start at `now`. */
  function CreateDeck(s: Store, userId: UserId, name: string, description: Option<string>,
                      now: Timestamp): (r: (Store, Deck))
    ensures r.1.userId == userId && r.1.name == name && r.1.description == description
    ensures r.1.createdAt == now && r.1.updatedAt == now
    ensures r.0.decks == s.decks[r.1.id := r.1] && r.0.cards == s.cards
    ensures r.0.nextCardId == s.nextCardId && r.0.nextDeckId > r.1.id >= s.nextDeckId
    ensures Valid(s) ==> r.1.id !in s.decks && Valid(r.0)
  {
    var deck := Deck(s.nextDeckId, userId, name, description, now, now);
    var t := s.(decks := s.decks[deck.id := deck], nextDeckId := s.nextDeckId + 1);
    assert Valid(s) ==> Valid(t) by {
      if Valid(s) {
        assert DeckIdsIssued(t);
        assert CardsHaveDecks(t) by {
          forall k | k in t.cards ensures t.cards[k].deckId in t.decks {
            assert s.cards[k].deckId in s.decks;
          }
        }
      }
    }
    (t, deck)
  }

  /** Deletes a deck the user owns; its cards go with it (the cascading foreign key). */
  function DeleteDeck(s: Store, deckId: int, userId: UserId): (r: Result<Store, Error>)
    ensures r.Err? <==> !OwnsDeck(s, deckId, userId)
    ensures r.Err? ==> r.error == NotFoundOrUnauthorized(DeckEntity)
    ensures r.Ok? ==> r.value.decks == s.decks - {deckId}
    ensures r.Ok? ==> forall k :: k in r.value.cards <==> k in s.cards && s.cards[k].deckId != deckId
    ensures r.Ok? ==> forall k :: k in r.value.cards ==> r.value.cards[k] == s.cards[k]
    ensures r.Ok? ==> r.value.nextDeckId == s.nextDeckId && r.value.nextCardId == s.nextCardId
    ensures Valid(s) && r.Ok? ==> Valid(r.value)
  {
    if GetDeckById(s, deckId, userId).None? then
      Err(NotFoundOrUnauthorized(DeckEntity))
    else
      var cards := map k | k in s.cards && s.cards[k].deckId != deckId :: s.cards[k];
      Ok(s.(decks := s.decks - {deckId}, cards := cards))
  }

  /** A deck just created is found again by its owner, with the fields it was
      created with and no cards, and by nobody else. */
  lemma CreateThenGet(s: Store, userId: UserId, name: string, description: Option<string>,
                      now: Timestamp, other: UserId)
    requires Valid(s)
    requires other != userId
    ensures var (t, deck) := CreateDeck(s, userId, name, description, now);
      && GetDeckById(t, deck.id, userId) == Some(DeckWithCards(deck, map[]))
      && GetDeckById(t, deck.id, other) == None
      && deck.id !in OwnedIds(t, other)
  {
    var (t, deck) := CreateDeck(s, userId, name, description, now);
    assert CardsOf(t, deck.id) == map[] by {
      forall k | k in t.cards ensures t.cards[k].deckId != deck.id {
        assert t.cards[k].deckId in s.decks;
      }
    }
  }

  /** After a successful delete the deck is gone for its owner, and no card
      refers to it any more. */
  lemma DeleteThenGet(s: Store, deckId: int, userId: UserId)
    requires DeleteDeck(s, deckId, userId).Ok?
    ensures var t := DeleteDeck(s, deckId, userId).value;
      GetDeckById(t, deckId, userId) == None && CardsOf(t, deckId) == map[]
  {
  }

  /** Creating a deck for `userId` changes nothing any other user owns or sees. */
  lemma CreateDeckIsolated(s: Store, userId: UserId, name: string, description: Option<string>,
                           now: Timestamp)
    requires Valid(s)
    ensures OthersUnchanged(s, CreateDeck(s, userId, name, description, now).0, userId)
  {
    var (t, deck) := CreateDeck(s, userId, name, description, now);
    forall v | v != userId
      ensures OwnedDecks(s, v) == OwnedDecks(t, v) && OwnedCards(s, v) == OwnedCards(t, v)
    {
      assert OwnedCards(s, v) == OwnedCards(t, v) by {
        forall k | k in s.cards ensures OwnsDeck(s, s.cards[k].deckId, v) <==> OwnsDeck(t, t.cards[k].deckId, v) {
          assert s.cards[k].deckId in s.decks;
          assert s.cards[k].deckId != deck.id;
        }
      }
    }
  }

  /** Deleting one of `userId`'s decks changes nothing any other user owns or sees. */
  lemma DeleteDeckIsolated(s: Store, deckId: int, userId: UserId)
    ensures DeleteDeck(s, deckId, userId).Ok? ==>
      OthersUnchanged(s, DeleteDeck(s, deckId, userId).value, userId)
  {
    var r := DeleteDeck(s, deckId, userId);
    if r.Ok? {
      var t := r.value;
      forall v | v != userId
        ensures OwnedDecks(s, v) == OwnedDecks(t, v) && OwnedCards(s, v) == OwnedCards(t, v)
      {
        assert OwnedDecks(s, v) == OwnedDecks(t, v);
        assert OwnedCards(s, v) == OwnedCards(t, v) by {
          forall k | k in OwnedCards(s, v) ensures k in OwnedCards(t, v) {
            assert s.cards[k].deckId != deckId;
          }
          forall k | k in OwnedCards(t, v) ensures k in OwnedCards(s, v) && OwnedCards(s, v)[k] == t.cards[k] {
            assert t.cards[k] == s.cards[k];
          }
        }
      }
    }
  }
}

=== FILE: effects.dfy ===
/** What an action leaves behind besides its result: stale views and a navigation. */
module Effects {
  import opened Wrappers
  import opened Errors
  import opened Schema

  /** The two views the actions invalidate: the deck listing and one deck's page. */
  datatype View = Dashboard | DeckPage(deckId: int)

  datatype Event = Revalidate(path: string) | Redirect(path: string)

  /** The store after the action, the events it emitted in order, and its result. */
  datatype Outcome<T> = Outcome(store: Store, events: seq<Event>, result: Result<T, Error>)

  /** A failed action: the store as it was, no events. */
  function Rejected<T>(s: Store, e: Error): (o: Outcome<T>)
    ensures o.store == s && o.events == [] && o.result == Err(e)
  {
    Outcome(s, [], Err(e))
  }

  predicate IsDigit(c: char) {
    '0' <= c <= '9'
  }

  function Digit(d: nat): (c: char)
    requires d < 10
    ensures IsDigit(c)
  {
    ('0' as int + d) as char
  }

  /** The decimal rendering of `n`, as a template literal prints a whole number. */
  function Decimal(n: nat): (r: string)
    ensures |r| >= 1
    ensures forall i :: 0 <= i < |r| ==> IsDigit(r[i])
  {
    if n < 10 then [Digit(n)] else Decimal(n / 10) + [Digit(n % 10)]
  }

  /** Reads a string of digits back as a number. */
  function ParseDecimal(s: string): int {
    if |s| == 0 then 0
    else ParseDecimal(s[..|s| - 1]) * 10 + (s[|s| - 1] as int - '0' as int)
  }

  lemma {:induction false} DecimalRoundTrip(n: nat)
    ensures ParseDecimal(Decimal(n)) == n
  {
    if n >= 10 {
      var s := Decimal(n);
      assert s[..|s| - 1] == Decimal(n / 10);
      DecimalRoundTrip(n / 10);
    }
  }

  /** The path a view is served under, as the `/decks/${id}` template literal builds it
      (src/actions/card-actions.ts:40). */
  function Path(v: View): (p: string)
    ensures |p| >= 2 && p[0] == '/'
  {
    match v
    case Dashboard => "/dashboard"
    case DeckPage(id) => "/decks/" + (if id < 0 then "-" + Decimal(-id) else Decimal(id))
  }

  /** Recovers the view a path names. */
  function ParsePath(p: string): Option<View> {
    if p == "/dashboard" then Some(Dashboard)
    else if |p| >= 8 && p[..7] == "/decks/" then
      if p[7] == '-' then Some(DeckPage(-ParseDecimal(p[8..])))
      else Some(DeckPage(ParseDecimal(p[7..])))
    else None
  }

  /** Every invalidation path names exactly the view it was built from. */
  lemma PathRoundTrip(v: View)
    ensures ParsePath(Path(v)) == Some(v)
  {
    match v
    case Dashboard =>
    case DeckPage(id) =>
      var p := Path(v);
      assert p[2] == 'e';
      if id < 0 {
        assert p[8..] == Decimal(-id);
        DecimalRoundTrip(-id);
      } else {
        assert p[7..] == Decimal(id);
        DecimalRoundTrip(id);
      }
  }

  lemma PathInjective(v: View, w: View)
    ensures Path(v) == Path(w) <==> v == w
  {
    PathRoundTrip(v);
    PathRoundTrip(w);
  }
}

=== FILE: errors.dfy ===
/** The failures an entry point can report to its caller. */
module Errors {

  /** A constraint of an input schema that a payload field can break.
      String rules carry the message the schema attaches to them. */
  datatype Rule =
    | MinLength(bound: nat, message: string)
    | MaxLength(bound: nat, message: string)
    | Integer
    | Positive

  /** One validation issue: the payload field and the rule it broke. */
  datatype Issue = Issue(field: string, rule: Rule)

  /** Which table a "not found or unauthorized" failure is about; it fixes the
      message, "Deck not found or unauthorized" or "Card not found or unauthorized". */
  datatype Entity = DeckEntity | CardEntity

  datatype Error =
    | Unauthorized
    | ValidationFailed(issues: seq<Issue>)
    | NotFoundOrUnauthorized(entity: Entity)
}

=== FILE: scenarios.dfy ===
/** End-to-end runs of the actions against one store. */
module Scenarios {
  import opened Wrappers
  import opened Errors
  import opened Schema
  import opened Effects
  import DeckQueries
  import CardActions
  import DeckActions

  /** Create "Basics", add two cards, delete the first, then delete the deck. */
  lemma BasicsScenario(user: UserId)
    requires user != ""
    ensures
      var auth := Some(user);
      var o1 := DeckActions.CreateDeck(Empty, auth, DeckActions.CreateDeckInput("Basics", None), 1);
      var deckId := o1.result.value.id;
      var o2 := CardActions.CreateCard(o1.store, auth, CardActions.CreateCardInput(deckId as real, "Dog", "Anjing"), 2);
      var o3 := CardActions.CreateCard(o2.store, auth, CardActions.CreateCardInput(deckId as real, "Cat", "Kucing"), 3);
      var dog := o2.result.value;
      var cat := o3.result.value;
      var o4 := CardActions.DeleteCard(o3.store, auth, CardActions.DeleteCardInput(dog.id as real, deckId as real), 4);
      var o5 := DeckActions.DeleteDeck(o4.store, auth, DeckActions.DeleteDeckInput(deckId as real));
      && o1.result.Ok? && o2.result.Ok? && o3.result.Ok? && o4.result.Ok? && o5.result.Ok?
      && DeckQueries.GetDeckById(o3.store, deckId, user).value.cards.Keys == {dog.id, cat.id}
      && DeckQueries.GetDeckById(o4.store, deckId, user).value.cards == map[cat.id := cat]
      && cat.front == "Cat" && cat.back == "Kucing"
      && DeckQueries.GetDeckById(o5.store, deckId, user) == None
      && o5.store.cards == map[]
  {
    var auth := Some(user);
    var o1 := DeckActions.CreateDeck(Empty, auth, DeckActions.CreateDeckInput("Basics", None), 1);
    var deckId := o1.result.value.id;
    assert deckId == 1;
    var o2 := CardActions.CreateCard(o1.store, auth, CardActions.CreateCardInput(deckId as real, "Dog", "Anjing"), 2);
    var o3 := CardActions.CreateCard(o2.store, auth, CardActions.CreateCardInput(deckId as real, "Cat", "Kucing"), 3);
    var dog := o2.result.value;
    var cat := o3.result.value;
    assert dog.id == 1 && cat.id == 2;
    var o4 := CardActions.DeleteCard(o3.store, auth, CardActions.DeleteCardInput(dog.id as real, deckId as real), 4);
    assert o4.store.cards == map[cat.id := cat];
  }

  /** An empty front is refused by the schema and nothing is stored. */
  lemma EmptyFrontRejected(s: Store, user: UserId, deckId: real, back: string, now: Timestamp)
    requires user != ""
    ensures
      var o := CardActions.CreateCard(s, Some(user), CardActions.CreateCardInput(deckId, "", back), now);
      && o.result.Err? && o.result.error.ValidationFailed?
      && Issue("front", MinLength(1, "Front text is required")) in o.result.error.issues
      && o.store == s && o.events == []
  {
  }
}

=== FILE: schema.dfy ===
/** The two tables, decks and cards, held as an abstract in-memory store. */
module Schema {
  import opened Wrappers

  /** The opaque user identifier handed out by the identity provider. */
  type UserId = string

  /** An abstract clock reading; the store's `now()` default and `new Date()`. */
  type Timestamp = nat

  datatype Deck = Deck(
    id: int,
    userId: UserId,
    name: string,
    description: Option<string>,
    createdAt: Timestamp,
    updatedAt: Timestamp)

  datatype Card = Card(
    id: int,
    deckId: int,
    front: string,
    back: string,
    createdAt: Timestamp,
    updatedAt: Timestamp)

  /** Both tables keyed by primary key, plus the next value of each identity
      sequence (identity columns start at 1 and never hand out a value twice). */
  datatype Store = Store(
    decks: map<int, Deck>,
    cards: map<int, Card>,
    nextDeckId: int,
    nextCardId: int)

  const Empty: Store := Store(map[], map[], 1, 1)

  /** Every deck row sits under its own id, an identity value already handed out. */
  predicate DeckIdsIssued(s: Store) {
    && 1 <= s.nextDeckId
    && forall k :: k in s.decks ==> s.decks[k].id == k && 1 <= k < s.nextDeckId
  }

  /** Every card row sits under its own id, an identity value already handed out. */
  predicate CardIdsIssued(s: Store) {
    && 1 <= s.nextCardId
    && forall k :: k in s.cards ==> s.cards[k].id == k && 1 <= k < s.nextCardId
  }

  /** The foreign key from cards.deckId to decks.id. */
  predicate CardsHaveDecks(s: Store) {
    forall k :: k in s.cards ==> s.cards[k].deckId in s.decks
  }

  /** The store invariant the schema enforces. */
  predicate Valid(s: Store) {
    DeckIdsIssued(s) && CardIdsIssued(s) && CardsHaveDecks(s)
  }

  /** Every row was created no later than its last update, which is no later than `clock`. */
  predicate Chronological(s: Store, clock: Timestamp) {
    && (forall k :: k in s.decks ==> s.decks[k].createdAt <= s.decks[k].updatedAt <= clock)
    && (forall k :: k in s.cards ==> s.cards[k].createdAt <= s.cards[k].updatedAt <= clock)
  }

  predicate OwnsDeck(s: Store, deckId: int, userId: UserId) {
    deckId in s.decks && s.decks[deckId].userId == userId
  }

  /** Card ownership is derived from the card's actual parent deck. */
  predicate OwnsCard(s: Store, cardId: int, userId: UserId) {
    cardId in s.cards && OwnsDeck(s, s.cards[cardId].deckId, userId)
  }

  /** The cards the deck→cards relation attaches to the deck with id `deckId`. */
  function CardsOf(s: Store, deckId: int): (r: map<int, Card>)
    ensures forall k :: k in r <==> k in s.cards && s.cards[k].deckId == deckId
    ensures forall k :: k in r ==> r[k] == s.cards[k]
  {
    map k | k in s.cards && s.cards[k].deckId == deckId :: s.cards[k]
  }

  /** The ids of the decks `userId` owns. */
  function OwnedIds(s: Store, userId: UserId): set<int> {
    set k | k in s.decks && s.decks[k].userId == userId
  }

  /** Everything `userId` can see: their decks, and the cards of those decks. */
  function OwnedDecks(s: Store, userId: UserId): map<int, Deck> {
    map k | k in s.decks && s.decks[k].userId == userId :: s.decks[k]
  }

  function OwnedCards(s: Store, userId: UserId): map<int, Card> {
    map k | k in s.cards && OwnsDeck(s, s.cards[k].deckId, userId) :: s.cards[k]
  }

  /** Going from `s` to `t` changed nothing that a user other than `userId` owns
      or can see. */
  ghost predicate OthersUnchanged(s: Store, t: Store, userId: UserId) {
    forall v :: v != userId ==>
      OwnedDecks(s, v) == OwnedDecks(t, v) && OwnedCards(s, v) == OwnedCards(t, v)
  }
}

=== FILE: validation.dfy ===
/** Identity and input-schema checks shared by the server actions. */
module Validation {
  import opened Wrappers
  import opened Errors

  /** The identity provider yields a user id, or nothing; an empty id is falsy
      and is rejected like a missing one. */
  predicate Authenticated(auth: Option<string>) {
    auth.Some? && auth.value != ""
  }

  /** A JSON number that is a whole number greater than zero. */
  predicate IsPositiveInteger(x: real) {
    x.Floor as real == x && x > 0.0
  }

  /** The issues of an `int().positive()` number field, in check order. */
  function IdIssues(field: string, x: real): (r: seq<Issue>)
    ensures r == [] <==> IsPositiveInteger(x)
    ensures Issue(field, Integer) in r <==> x.Floor as real != x
    ensures Issue(field, Positive) in r <==> x <= 0.0
    ensures forall i :: 0 <= i < |r| ==> r[i] in {Issue(field, Integer), Issue(field, Positive)}
    ensures |r| <= 2
  {
    (if x.Floor as real != x then [Issue(field, Integer)] else [])
    + (if x <= 0.0 then [Issue(field, Positive)] else [])
  }

  /** The issues of a `string().min(lo).max(hi)` field, in check order. */
  function TextIssues(field: string, s: string, lo: nat, tooShort: string, hi: nat, tooLong: string)
    : (r: seq<Issue>)
    ensures r == [] <==> lo <= |s| <= hi
    ensures Issue(field, MinLength(lo, tooShort)) in r <==> |s| < lo
    ensures Issue(field, MaxLength(hi, tooLong)) in r <==> |s| > hi
    ensures forall i :: 0 <= i < |r| ==> r[i] in {Issue(field, MinLength(lo, tooShort)), Issue(field, MaxLength(hi, tooLong))}
    ensures lo <= hi ==> |r| <= 1
  {
    (if |s| < lo then [Issue(field, MinLength(lo, tooShort))] else [])
    + (if |s| > hi then [Issue(field, MaxLength(hi, tooLong))] else [])
  }

  /** The issues of a `string().max(hi).optional()` field: an absent value passes. */
  function OptionalTextIssues(field: string, s: Option<string>, hi: nat, tooLong: string)
    : (r: seq<Issue>)
    ensures r == [] <==> (s.None? || |s.value| <= hi)
    ensures forall i :: 0 <= i < |r| ==> r[i] == Issue(field, MaxLength(hi, tooLong))
  {
    if s.Some? && |s.value| > hi then [Issue(field, MaxLength(hi, tooLong))] else []
  }
}

=== FILE: wrappers.dfy ===
/** Optional values, and results that carry either a value or an error. */
module Wrappers {

  datatype Option<+T> = None | Some(value: T)

  datatype Result<+T, +E> = Ok(value: T) | Err(error: E)
}
